=== FILE: README.md ===
# isign bundle formats and re-sign ordering, in Dafny

This project models the core of isign's `app.py`: how an input path is
recognised as a signable iOS app (a plain `.app` directory, a generic
`.zip` holding one `<name>.app/`, or an `.ipa` holding one
`Payload/<name>.app/`), how an extracted bundle finds its main executable
and builds its entitlements, the fixed order in which `App.resign` and
`App.sign` mutate a bundle, and the directory variant's archive step.

The surrounding I/O is abstracted:

- a parsed property list is a `map<string, Value>`;
- a zip archive is its name list in archive order, plus the parsed
  contents of its members;
- the filesystem is a map from path strings to nodes (directory, or a file
  holding raw bytes, a property list or a zip archive);
- the signer, the dylib and executable signers and the resource sealer are
  events appended to a trace. The sealer's returned path is a function
  parameter.

Modules follow the source's structure:

- `Paths`: `os.path.join`, `basename`, `splitext`, `str.endswith`.
- `Plist`: values and `is_plist_native`.
- `Files`: the filesystem and the library calls made on it.
- `Patterns`: the extension tests, the two app-directory regexes and the
  name-list scan.
- `Apps`: the `App` class.
- `Signing`: `App.sign` and `App.resign`.
- `AppZips`: `AppZip` and `Ipa`.
- `Factory`: `app_archive_factory`.

The model keeps these Python semantics:

- Nativity uses Python's `in`. A string-valued `CFBundleSupportedPlatforms`
  is therefore checked by substring (`"iPhoneOSX"` is native). A boolean or
  integer value raises `TypeError` rather than `NotMatched`.
- The regexes use Python's `$`, which also matches before one final
  newline. So `Foo.app/\n` is an app directory too.
- A directory whose `App` construction fails is re-raised as
  `NotSignable`, not `NotMatched`. Errors that are not `NotSignable`
  (unreadable plist, `TypeError`) escape the factory unchanged.
- `glob` skips names that start with a dot, so `Frameworks/.x.dylib` is
  never signed.

## Model

| member | source | states |
|---|---|---|
| `Plist.IsPlistNative` | isign/app.py:40-44 | A plist without `CFBundleSupportedPlatforms` is not native; native implies the key is present; only a non-iterable value raises |
| `Plist.Contains` | isign/app.py:40-44 | Python's `in` for a string item: list membership, substring of a string, key of a dictionary; a boolean or integer container raises `TypeError` |
| `Plist.NativeIffListContains` | isign/app.py:40-44 | For a list-valued platforms entry, native holds exactly when the list contains `iPhoneOS` |
| `Plist.StringPlatformIsSubstringTest` | isign/app.py:40-44 | For every string-valued platforms entry, native holds exactly when `iPhoneOS` occurs in it as a substring, so `iPhoneOSX` counts as native |
| `Apps.Precheck` | isign/app.py:50-59 | A missing Info.plist means not native. The answer is native exactly when the Info.plist reads and passes the nativity test, and not native exactly when the file is absent or reads and fails it; any other outcome is the read's or the test's exception |
| `Apps.NewApp` | isign/app.py:68-85 | Construction succeeds exactly on a readable, native Info.plist. A missing or non-native one raises `NotMatched`. A new app has no seal path, and its entitlements and profile paths lie in its root |
| `Apps.ExecutableName` | isign/app.py:88-92 | The explicit `CFBundleExecutable` string is used when present. Otherwise the name is the root's base name minus its extension, and name plus extension gives back the base name |
| `Apps.ExecutablePath` | isign/app.py:87-97 | Succeeds exactly when the joined path exists; the result exists and ends with the executable name; otherwise the missing-executable error |
| `Apps.ExplicitExecutable` | isign/app.py:87-97 | With `CFBundleExecutable` = `name`, the executable is `<root>/<name>` when that file exists, else the lookup fails |
| `Apps.FallbackExecutable` | isign/app.py:91-97 | Without `CFBundleExecutable`, the executable is `<root>/<stem>`, where the stem is the base name with its extension stripped; a missing file is an error |
| `Paths.SplitExt` | isign/app.py:92 | Root and extension concatenate back to the input; the extension is empty or one dot-led part with no further dot or separator; a non-empty name keeps a non-empty root |
| `Paths.Basename` | isign/app.py:92 | The base name has no separator, is a suffix of the path, and is preceded by a separator unless it is the whole path |
| `Paths.StemOf` | isign/app.py:92 | The fallback name of any bundle `<d>/<x>.<ext>`, with a separator-free name not starting with a dot and a single-part extension, is `x`: `/w/Foo.app` gives `Foo` |
| `Paths.SplitExtAtLastDot` | isign/app.py:92 | A base name `x.ext` whose `x` does not start with a dot splits into `x` and `.ext`: only the last extension is stripped and inner dots stay |
| `Paths.DotFileHasNoExtension` | isign/app.py:92 | A name whose only dot is its leading one, such as `.app`, has no extension: the leading dot never starts one |
| `Paths.Join` | isign/app.py:93 | The joined path ends with the second part; an absolute second part replaces the first; otherwise the first part is a prefix |
| `Apps.ProvisionKeepsOtherPaths` | isign/app.py:99-100 | A successful provision leaves exactly the old paths plus the profile's target: no path disappears |
| `Apps.Provision` | isign/app.py:99-100 | The profile's bytes are placed at the bundle's `embedded.mobileprovision`, nothing else changes, and a missing or directory source fails |
| `Apps.Entitlements` | isign/app.py:103-108 | Exactly four keys. The team identifier is the team id and `get-task-allow` is true. The application identifier is the team id followed by `.*`, and the keychain group list holds exactly that identifier |
| `Apps.EntitlementsDetermineTeam` | isign/app.py:102-108 | The entitlements depend only on the team id and determine it: equal entitlements iff equal team ids |
| `Apps.CreateEntitlementsKeepsOtherPaths` | isign/app.py:109 | Writing the entitlements leaves exactly the old paths plus the entitlements path: no path disappears |
| `Apps.CreateEntitlements` | isign/app.py:102-109 | The entitlements file holds the four-key dictionary in non-binary form, and no other path changes |
| `Apps.CreateEntitlementsIdempotent` | isign/app.py:102-109 | Writing the entitlements twice with one team id leaves the same filesystem as writing them once |
| `Apps.EntitlementsReadBack` | isign/app.py:102-109 | Reading the written file back yields exactly the entitlements dictionary |
| `Files.ReadPlist` | isign/app.py:57 | `biplist.readPlist`: a missing path raises a missing-file error and a directory an is-a-directory error; the read succeeds exactly on an existing file holding a property list |
| `Files.WritePlist` | isign/app.py:109 | `biplist.writePlist`: fails exactly when the target is a directory; otherwise creates or overwrites that one path and leaves every other path as it was |
| `Files.ReadAfterWrite` | isign/app.py:109 | Reading back a just-written property list yields the written dictionary |
| `Files.WriteIdempotent` | isign/app.py:109 | Writing the same property list twice equals writing it once |
| `Files.CopyFile` | isign/app.py:100 | A copy succeeds exactly for an existing, distinct, non-directory source and a non-directory target, and changes only the target |
| `Signing.DylibGlobMatch` | isign/app.py:116 | `glob` of `*.dylib` in a directory: a direct child whose name is non-empty, has no separator, does not start with a dot and ends in `.dylib` |
| `Signing.DylibGlobChild` | isign/app.py:116 | For a path one separator below the directory, the glob accepts exactly the non-hidden names ending in `.dylib`, so names with a further separator are never matched |
| `Signing.DylibPaths` | isign/app.py:114-116 | No `Frameworks` directory means no dylibs. Otherwise the dylibs are exactly the existing direct children of `Frameworks` named `*.dylib` that do not start with a dot |
| `Signing.SignDylibs` | isign/app.py:116-119 | Every dylib is signed exactly once, and nothing else is signed, in some listing order |
| `Signing.Sign` | isign/app.py:112-126 | All dylibs are signed first, then the seal is made over the current executable, then the executable is signed. The app records the seal's path. A missing executable fails after the dylibs and before the seal |
| `Signing.SignShapeInOrder` | isign/app.py:112-126 | A sign run is in phase order: only dylib signing repeats, and nothing comes back to an earlier phase |
| `Signing.DylibsBeforeSealBeforeExecutable` | isign/app.py:113-126 | On success each dylib's signing precedes the seal, which precedes the executable's signing |
| `Signing.NoFrameworksNoDylibs` | isign/app.py:114-115 | Without a `Frameworks` directory no dylib is signed |
| `Signing.Resign` | isign/app.py:134-138 | Provisioning happens, then entitlements for the signer's team id, then signing. The trace is in phase order. A failing step stops the later ones and keeps the changes already made. After a success, the bundle holds the copied profile (when its path differs from the entitlements path) and the team's entitlements, and the returned app has the same path and a seal path |
| `Signing.SetupThenSignInOrder` | isign/app.py:134-138 | Provisioning and entitlements placed ahead of an ordered sign run give a trace in phase order |
| `Files.RemoveTree` | isign/app.py:131 | Removal succeeds only on a directory and removes exactly the paths in its tree |
| `Files.Rename` | isign/app.py:132 | Every path of the source tree reappears at the same place under the destination; paths outside both trees are untouched |
| `Apps.Archive` | isign/app.py:128-132 | An existing plain file at the output path makes the removal fail. Success requires an existing source that the removal did not delete and that the output does not lie inside |
| `Apps.ArchiveSucceeds` | isign/app.py:128-132 | The archive succeeds whenever the source exists, the output is absent or a directory not holding the source, and a directory source is not moved inside itself; with `Apps.Archive`'s conditions this makes success an iff |
| `Apps.ArchiveMovesTree` | isign/app.py:128-132 | After success the output holds the moved tree and nothing else, the source path no longer exists, and everything outside both trees is unchanged |
| `Apps.ArchiveOntoInputDestroysIt` | isign/app.py:130-132 | Archiving a directory onto its own path deletes it, and the move then fails |
| `Patterns.ExtensionMatch` | isign/app.py:153-158 | True exactly when one of the listed extensions is a suffix of the path |
| `Patterns.ExtensionIsSuffixTest` | isign/app.py:146 | The generic zip accepts exactly the paths ending in `.zip`, and the IPA variant exactly those ending in `.ipa` |
| `Patterns.ExtensionsExclusive` | isign/app.py:213-216 | No path passes both the `.zip` and the `.ipa` test |
| `Paths.EndsWithConcat` | isign/app.py:156 | Every `pre + suffix` passes the suffix test |
| `Patterns.GenericPatternAccepts` | isign/app.py:145 | Every `x.app/` with non-empty, separator-free `x` matches `^[^/]+\.app/$`, and so does it followed by one newline |
| `Patterns.GenericPatternShape` | isign/app.py:145 | Every match of `^[^/]+\.app/$` is such a single component ending in `.app/`, optionally followed by one newline |
| `Patterns.IpaPatternAccepts` | isign/app.py:217 | Every `Payload/x.app/` with non-empty, separator-free `x` matches `^Payload/[^/]+\.app/$` |
| `Patterns.IpaPatternShape` | isign/app.py:217 | Every IPA match is `Payload/` followed by one separator-free `.app/` component, plus at most one final newline |
| `Patterns.IpaEntryIsNotGeneric` | isign/app.py:145 | An entry like `Payload/Foo.app/` never matches the generic-zip pattern |
| `Patterns.GenericEntryIsNotIpa` | isign/app.py:217 | A generic app-directory entry never matches the IPA pattern |
| `Patterns.AppDirEntries` | isign/app.py:168-172 | The scan keeps exactly the names that match the variant's pattern |
| `Patterns.NoEntriesIff` | isign/app.py:168-173 | The scan finds nothing exactly when no entry matches |
| `Patterns.SingleEntryIff` | isign/app.py:168-174 | The scan yields the single entry `d` exactly when `d` is at the one and only matching position of the name list |
| `Patterns.TwoMatchesNotSingle` | isign/app.py:168-173 | Two matching positions, even holding the same name twice, leave more than one candidate |
| `AppZips.IsZipFile` | isign/app.py:166 | `zipfile.is_zipfile`: the path exists, is a file, and holds a zip archive |
| `AppZips.ReadMemberPlist` | isign/app.py:175-177 | A missing Info.plist member raises `KeyError`; a result comes from that member's parsed contents |
| `AppZips.Precheck` | isign/app.py:160-179 | A wrong extension or a non-zip file gives no app dir. A returned app dir is the one matching entry of the name list. Native implies an app dir was found and its Info.plist is native |
| `AppZips.PrecheckFindsTheOne` | isign/app.py:165-179 | With the right extension, a zip file and exactly one matching entry, the precheck reports that entry. Its answer is the nativity test's answer on that entry's Info.plist. A missing member or a raising test propagates its exception |
| `AppZips.NewAppZip` | isign/app.py:181-189 | A constructed archive passed the extension test, is a zip, records the one matching entry as its app dir, and that entry's Info.plist reads and is native. A wrong extension or a non-zip file raises `NotMatched` |
| `AppZips.NotExactlyOneIsNotMatched` | isign/app.py:160-189 | With zero, or two or more, matching entries the constructor raises `NotMatched` |
| `AppZips.TwoAppDirsNotMatched` | isign/app.py:168-189 | Two matching entries make the constructor raise `NotMatched` |
| `AppZips.ExactlyOneIsRecognised` | isign/app.py:160-189 | Right extension, exactly one matching entry and a native Info.plist inside it give an archive whose app dir is that entry |
| `AppZips.NonNativeArchiveNotMatched` | isign/app.py:175-189 | A single app dir whose Info.plist is not native raises `NotMatched` |
| `Factory.AppArchiveFactory` | isign/app.py:220-240 | A directory yields an app exactly when `App` constructs, with `NotSignable`-family errors re-raised as `NotSignable`. A file only ever yields an archive for that path. The factory never lets `NotMatched` escape |
| `Factory.GenericZipTriedFirst` | isign/app.py:229-238 | When the generic zip variant constructs, it is the factory's result |
| `Factory.IpaTriedSecond` | isign/app.py:229-238 | The result is an IPA exactly when the generic zip raised `NotMatched` and the IPA constructs |
| `Factory.NeitherVariantIsNotSignable` | isign/app.py:229-240 | When both zip variants raise `NotMatched`, the factory raises `NotSignable` |
| `Factory.DirectoryOnlyApp` | isign/app.py:222-227 | A directory is never treated as an archive; a non-native directory raises `NotSignable` |
| `Factory.ZipVariantsExclusive` | isign/app.py:229-236 | The two zip variants never both construct for one path, so their order never chooses between two matches |
| `Factory.NativeDirectoryRecognised` | isign/app.py:222-224 | A directory whose Info.plist reads and is native is returned as an app rooted at that path with no seal yet |
| `Factory.IpaRecognised` | isign/app.py:213-238 | An `.ipa` with exactly one `Payload/<name>.app/` entry and a native Info.plist is recognised as an IPA with that app dir |

## Left out

- Plist parsing and zip decoding: parsed plists and name lists are given values. Plist dates, reals and data blobs are not modelled.
- Path normalisation: `exists` is membership of the exact string in the filesystem map. Trailing slashes, `..` and symbolic links are not resolved. `glob` metacharacters inside the bundle root are taken literally. Parent directories are not checked when a file is written or renamed.
- `App.unarchive_to_temp` and `make_temp_dir` (isign/app.py:36-37, 61-66): they create a temporary directory and copy a tree, which is temp-dir plumbing.
- `AppZip.unarchive_to_temp` and `AppZip.archive` (isign/app.py:191-210): they run the external `unzip`/`zip` tools, whose exit status is ignored, plus `chdir` and `mkstemp`.
- `AppZip.is_helpers_present` and the missing-helper branch of `AppZip.__init__` (isign/app.py:149-151, 183-185): tool discovery happens at import time. The branch returns `False` from `__init__`, which is not a clean `NotMatched`. The model assumes `zip` and `unzip` are present.
- The module-level `resign` driver (isign/app.py:243-267): signer construction from certificate files, logging, and a workspace cleanup that is commented out. The model claims nothing about workspace release.
- `Signer`, `signable.Dylib`, `signable.Executable` and `code_resources.make_seal` are not part of this model. They appear only as trace events, plus the seal path that the sealer returns. Their own failures are not modelled.
- `Signing.Sign`: the dylibs are signed in an unspecified order, because `glob` returns them in directory-listing order. The contract fixes which dylibs are signed, not their order.
- `Apps.ArchiveMovesTree`: stated for well-formed filesystems only, meaning every proper ancestor of an existing path is a directory. A bare path map can hold children of a missing directory, which a real filesystem cannot.

=== FILE: app.dfy ===
/**
 * The `App` class: an extracted bundle directory, its construction (which
 * re-checks nativity), executable lookup, provisioning, entitlements and
 * the directory variant's archive step.
 */
module Apps {
  import opened Wrappers
  import opened Errors
  import opened Plist
  import opened Files
  import Paths

  const InfoPlistName: string := "Info.plist"
  const EntitlementsName: string := "Entitlements.plist"
  const ProvisionName: string := "embedded.mobileprovision"
  const ExecutableKey: string := "CFBundleExecutable"

  /** An app bundle rooted at `path`; `sealPath` stays `None` until the seal is made. */
  datatype App = App(
    path: string,
    entitlementsPath: string,
    provisionPath: string,
    sealPath: Option<string>,
    info: PlistDict)

  /** The root's Info.plist reads and passes `is_plist_native`. */
  ghost predicate ReadsNative(fs: FileSystem, path: string) {
    var info := ReadPlist(fs, Paths.Join(path, InfoPlistName));
    info.Ok? && IsPlistNative(info.value) == Ok(true)
  }

  /** The root's Info.plist reads and fails `is_plist_native` without raising. */
  ghost predicate ReadsForeign(fs: FileSystem, path: string) {
    var info := ReadPlist(fs, Paths.Join(path, InfoPlistName));
    info.Ok? && IsPlistNative(info.value) == Ok(false)
  }

  /** `App.precheck`: native when an Info.plist exists at the root and passes `is_plist_native`. */
  function Precheck(fs: FileSystem, path: string): (r: Result<bool, Error>)
    ensures Paths.Join(path, InfoPlistName) !in fs ==> r == Ok(false)
    ensures r == Ok(true) <==> ReadsNative(fs, path)
    ensures r == Ok(false) <==> Paths.Join(path, InfoPlistName) !in fs || ReadsForeign(fs, path)
  {
    var plistPath := Paths.Join(path, InfoPlistName);
    if plistPath in fs then
      var plist :- ReadPlist(fs, plistPath);
      IsPlistNative(plist)
    else
      Ok(false)
  }

  /** `App(path)`: raises `NotMatched` unless the bundle is native; a new app has no seal. */
  function NewApp(fs: FileSystem, path: string): (r: Result<App, Error>)
    ensures r.Ok? <==> ReadsNative(fs, path)
    ensures r.Ok? ==> && r.value.path == path
                      && r.value.sealPath == None
                      && r.value.entitlementsPath == Paths.Join(path, EntitlementsName)
                      && r.value.provisionPath == Paths.Join(path, ProvisionName)
                      && ReadPlist(fs, Paths.Join(path, InfoPlistName)) == Ok(r.value.info)
                      && IsPlistNative(r.value.info) == Ok(true)
    ensures Paths.Join(path, InfoPlistName) !in fs ==> r == Err(NotMatched)
    ensures forall d :: ReadPlist(fs, Paths.Join(path, InfoPlistName)) == Ok(d) && IsPlistNative(d) == Ok(false)
                        ==> r == Err(NotMatched)
    ensures r.Err? && r.error != NotMatched ==> ReadPlist(fs, Paths.Join(path, InfoPlistName)).Err? || IsPlistNative(ReadPlist(fs, Paths.Join(path, InfoPlistName)).value).Err?
  {
    var isNative :- Precheck(fs, path);
    if !isNative then Err(NotMatched)
    else
      match ReadPlist(fs, Paths.Join(path, InfoPlistName))
      case Err(e) => Err(e)
      case Ok(info) => Ok(App(path, Paths.Join(path, EntitlementsName), Paths.Join(path, ProvisionName), None, info))
  }

  /** The executable's file name: the explicit `CFBundleExecutable`, else the root's base name without extension. */
  function ExecutableName(app: App): (r: Result<string, Error>)
    ensures ExecutableKey in app.info && app.info[ExecutableKey].Str? ==> r == Ok(app.info[ExecutableKey].s)
    ensures ExecutableKey in app.info && !app.info[ExecutableKey].Str? ==> r == Err(NotAString)
    ensures ExecutableKey !in app.info ==> r.Ok? && r.value + Paths.SplitExt(Paths.Basename(app.path)).1 == Paths.Basename(app.path)
  {
    if ExecutableKey in app.info then
      match app.info[ExecutableKey]
      case Str(s) => Ok(s)
      case _ => Err(NotAString)
    else
      Ok(Paths.Stem(app.path))
  }

  /** `get_executable_path`: the root joined with the executable name; an error when no such file exists. */
  function ExecutablePath(fs: FileSystem, app: App): (r: Result<string, Error>)
    ensures r.Ok? <==> ExecutableName(app).Ok? && Paths.Join(app.path, ExecutableName(app).value) in fs
    ensures r.Ok? ==> r.value in fs && Paths.EndsWith(r.value, ExecutableName(app).value)
    ensures ExecutableName(app).Ok? && r.Err? ==> r.error == MissingExecutable
  {
    var name :- ExecutableName(app);
    var executable := Paths.Join(app.path, name);
    if executable !in fs then Err(MissingExecutable) else Ok(executable)
  }

  /** With an explicit `CFBundleExecutable` of `Foo` and a file `Foo` at the root, that file is the executable. */
  lemma ExplicitExecutable(fs: FileSystem, app: App, name: string)
    requires app.path != "" && app.path[|app.path| - 1] != '/'
    requires ExecutableKey in app.info && app.info[ExecutableKey] == Str(name)
    requires name != "" && name[0] != '/'
    ensures Paths.Join(app.path, name) == app.path + "/" + name
    ensures app.path + "/" + name in fs ==> ExecutablePath(fs, app) == Ok(app.path + "/" + name)
    ensures app.path + "/" + name !in fs ==> ExecutablePath(fs, app) == Err(MissingExecutable)
  {
  }

  /** Without `CFBundleExecutable`, the executable is named after the root's base name with its extension stripped. */
  lemma FallbackExecutable(fs: FileSystem, app: App)
    requires app.path != "" && app.path[|app.path| - 1] != '/'
    requires ExecutableKey !in app.info
    ensures var stem := Paths.Stem(app.path);
            && stem + Paths.SplitExt(Paths.Basename(app.path)).1 == Paths.Basename(app.path)
            && (app.path + "/" + stem in fs ==> ExecutablePath(fs, app) == Ok(app.path + "/" + stem))
            && (app.path + "/" + stem !in fs ==> ExecutablePath(fs, app) == Err(MissingExecutable))
  {
    var b := Paths.Basename(app.path);
    assert b != "" by {
      assert Paths.EndsWith(app.path, b);
      assert b == app.path || app.path[|app.path| - |b| - 1] == '/';
    }
    assert b[0] in b;
    var stem := Paths.Stem(app.path);
    assert stem != "" && stem[0] != '/';
    assert ExecutableName(app) == Ok(stem);
    assert Paths.Join(app.path, stem) == app.path + "/" + stem;
  }

  /** `provision`: copy the profile over the bundle's `embedded.mobileprovision`. */
  function Provision(fs: FileSystem, app: App, profile: string): (r: Result<FileSystem, Error>)
    ensures r.Ok? <==> profile in fs && fs[profile].File? && profile != app.provisionPath && !IsDir(fs, app.provisionPath)
    ensures r.Ok? ==> app.provisionPath in r.value && r.value[app.provisionPath] == fs[profile]
    ensures r.Ok? ==> forall p :: p in r.value && p != app.provisionPath ==> p in fs && r.value[p] == fs[p]
  {
    CopyFile(fs, profile, app.provisionPath)
  }

  /** Provisioning adds the profile's path and keeps every other path. */
  lemma ProvisionKeepsOtherPaths(fs: FileSystem, app: App, profile: string)
    requires Provision(fs, app, profile).Ok?
    ensures Provision(fs, app, profile).value.Keys == fs.Keys + {app.provisionPath}
  {
  }

  const KeychainGroupsKey: string := "keychain-access-groups"
  const TeamIdentifierKey: string := "com.apple.developer.team-identifier"
  const ApplicationIdentifierKey: string := "application-identifier"
  const GetTaskAllowKey: string := "get-task-allow"

  /** The entitlements dictionary built from a team id. */
  function Entitlements(teamId: string): (r: PlistDict)
    ensures r.Keys == {KeychainGroupsKey, TeamIdentifierKey, ApplicationIdentifierKey, GetTaskAllowKey}
    ensures r[TeamIdentifierKey] == Str(teamId)
    ensures r[GetTaskAllowKey] == Bool(true)
    ensures r[KeychainGroupsKey] == Arr([r[ApplicationIdentifierKey]])
    ensures r[ApplicationIdentifierKey] == Str(teamId + ".*")
  {
    map[
      KeychainGroupsKey := Arr([Str(teamId + ".*")]),
      TeamIdentifierKey := Str(teamId),
      ApplicationIdentifierKey := Str(teamId + ".*"),
      GetTaskAllowKey := Bool(true)
    ]
  }

  /** The team id can be read back from the entitlements, so distinct teams give distinct entitlements. */
  lemma EntitlementsDetermineTeam(a: string, b: string)
    ensures Entitlements(a) == Entitlements(b) <==> a == b
  {
    if Entitlements(a) == Entitlements(b) {
      assert Entitlements(a)[TeamIdentifierKey] == Entitlements(b)[TeamIdentifierKey];
    }
  }

  /** `create_entitlements`: write the entitlements in textual form to `Entitlements.plist`. */
  function CreateEntitlements(fs: FileSystem, app: App, teamId: string): (r: Result<FileSystem, Error>)
    ensures r.Ok? <==> !IsDir(fs, app.entitlementsPath)
    ensures r.Ok? ==> app.entitlementsPath in r.value && r.value[app.entitlementsPath] == File(PlistDoc(Entitlements(teamId), false))
    ensures r.Ok? ==> forall p :: p in r.value && p != app.entitlementsPath ==> p in fs && r.value[p] == fs[p]
  {
    WritePlist(fs, app.entitlementsPath, Entitlements(teamId), false)
  }

  /** Writing the entitlements adds the entitlements path and keeps every other path. */
  lemma CreateEntitlementsKeepsOtherPaths(fs: FileSystem, app: App, teamId: string)
    requires CreateEntitlements(fs, app, teamId).Ok?
    ensures CreateEntitlements(fs, app, teamId).value.Keys == fs.Keys + {app.entitlementsPath}
  {
  }

  /** Writing the entitlements twice with the same team id gives the same result as writing them once. */
  lemma CreateEntitlementsIdempotent(fs: FileSystem, app: App, teamId: string)
    requires !IsDir(fs, app.entitlementsPath)
    ensures CreateEntitlements(CreateEntitlements(fs, app, teamId).value, app, teamId)
         == CreateEntitlements(fs, app, teamId)
  {
    WriteIdempotent(fs, app.entitlementsPath, Entitlements(teamId), false);
  }

  /** The written file reads back as exactly the four-key dictionary. */
  lemma EntitlementsReadBack(fs: FileSystem, app: App, teamId: string)
    requires !IsDir(fs, app.entitlementsPath)
    ensures ReadPlist(CreateEntitlements(fs, app, teamId).value, app.entitlementsPath) == Ok(Entitlements(teamId))
  {
    ReadAfterWrite(fs, app.entitlementsPath, Entitlements(teamId), false);
  }

  /** The filesystem after an archive step, and the exception it raised if any. */
  datatype ArchiveOutcome = ArchiveOutcome(fs: FileSystem, error: Option<Error>)

  /**
   * `App.archive`: remove whatever is at the output path, then move the
   * tree at `path` there. The removal happens even when the move fails.
   */
  function Archive(fs: FileSystem, path: string, output: string): (r: ArchiveOutcome)
    ensures output in fs && fs[output].File? ==> r == ArchiveOutcome(fs, Some(NotADirectory))
    ensures r.error.None? ==> path in fs && (output in fs ==> !Under(path, output))
    ensures r.error.None? ==> !(IsDir(fs, path) && StrictlyUnder(output, path))
  {
    match (if output in fs then RemoveTree(fs, output) else Ok(fs))
    case Err(e) => ArchiveOutcome(fs, Some(e))
    case Ok(cleared) =>
      if path !in cleared then ArchiveOutcome(cleared, Some(NoSuchFile))
      else if IsDir(cleared, path) && StrictlyUnder(output, path) then ArchiveOutcome(cleared, Some(MoveIntoItself))
      else ArchiveOutcome(Rename(cleared, path, output), None)
  }

  /**
   * The archive succeeds whenever the source exists, the output is absent or
   * a directory that does not hold the source, and a directory source is not
   * moved into itself; with the necessary conditions on `Archive` this is an iff.
   */
  lemma ArchiveSucceeds(fs: FileSystem, path: string, output: string)
    requires path in fs
    requires output in fs ==> fs[output].Dir? && !Under(path, output)
    requires !(IsDir(fs, path) && StrictlyUnder(output, path))
    ensures Archive(fs, path, output).error.None?
  {
  }

  /**
   * After a successful archive on a well-formed filesystem the output path
   * holds the moved tree, nothing else remains under it, the source path is
   * gone, and every path outside both trees is unchanged.
   */
  lemma ArchiveMovesTree(fs: FileSystem, path: string, output: string)
    requires WellFormed(fs)
    requires Archive(fs, path, output).error.None?
    ensures var after := Archive(fs, path, output).fs;
            && output in after && after[output] == fs[path]
            && path !in after
            && (forall p :: p in fs && Under(p, path) ==> Reroot(p, path, output) in after && after[Reroot(p, path, output)] == fs[p])
            && (forall q :: q in after && Under(q, output) ==> exists p :: p in fs && Under(p, path) && q == Reroot(p, path, output))
            && (forall p :: !Under(p, path) && !Under(p, output) ==> (p in after <==> p in fs) && (p in fs ==> after[p] == fs[p]))
  {
    var after := Archive(fs, path, output).fs;
    var cleared := if output in fs then RemoveTree(fs, output).value else fs;
    assert after == Rename(cleared, path, output);
    assert Reroot(path, path, output) == output;
    forall p | p in fs && Under(p, path)
      ensures p in cleared
    {
      if output in fs && Under(p, output) {
        UnderComparable(p, path, output);
      }
    }
  }

  /**
   * Archiving a directory onto its own path removes it before the move,
   * so the move fails and the input tree is gone.
   */
  lemma ArchiveOntoInputDestroysIt(fs: FileSystem, path: string)
    requires IsDir(fs, path)
    ensures Archive(fs, path, path).error == Some(NoSuchFile)
    ensures forall q :: q in Archive(fs, path, path).fs ==> !Under(q, path)
  {
  }
}

=== FILE: appzip.dfy ===
/**
 * The zip-based variants `AppZip` and `Ipa`: recognition of an archive
 * from its extension and its name list, before anything is extracted.
 */
module AppZips {
  import opened Wrappers
  import opened Errors
  import opened Plist
  import opened Files
  import opened Patterns
  import Paths

  /** A recognised archive and the one app directory found inside it. */
  datatype AppZip = AppZip(path: string, flavor: ZipFlavor, relativeAppDir: string)

  /** `zipfile.is_zipfile(path)`: an existing file whose contents are a zip archive. */
  predicate IsZipFile(fs: FileSystem, path: string) {
    path in fs && fs[path].File? && fs[path].blob.ZipDoc?
  }

  /** The Info.plist member of an app directory inside the archive. */
  function InfoPlistMember(relativeAppDir: string): string {
    Paths.Join(relativeAppDir, "Info.plist")
  }

  /** `z.read(member)` followed by `readPlistFromString`: a `KeyError` when the member is absent. */
  function ReadMemberPlist(archive: Blob, member: string): (r: Result<PlistDict, Error>)
    requires archive.ZipDoc?
    ensures member !in archive.members ==> r == Err(NoSuchMember)
    ensures r.Ok? ==> member in archive.members && ParsePlist(archive.members[member]) == r
  {
    if member !in archive.members then Err(NoSuchMember)
    else ParsePlist(archive.members[member])
  }

  /**
   * `AppZip.precheck`: for an archive with the right extension, the single
   * app directory matching the variant's pattern (none when zero or several
   * match) and whether its Info.plist is native.
   */
  function Precheck(fs: FileSystem, path: string, f: ZipFlavor): (r: Result<(Option<string>, bool), Error>)
    ensures !ExtensionMatch(path, Extensions(f)) || !IsZipFile(fs, path) ==> r == Ok((None, false))
    ensures r.Ok? && r.value.0.Some? ==>
              && ExtensionMatch(path, Extensions(f))
              && IsZipFile(fs, path)
              && ExactlyOneMatch(fs[path].blob.names, f, r.value.0.value)
    ensures r.Ok? && r.value.0.None? ==> !r.value.1
    ensures r.Ok? && r.value.1 ==>
              ReadMemberPlist(fs[path].blob, InfoPlistMember(r.value.0.value)).Ok?
              && IsPlistNative(ReadMemberPlist(fs[path].blob, InfoPlistMember(r.value.0.value)).value) == Ok(true)
  {
    if ExtensionMatch(path, Extensions(f)) && IsZipFile(fs, path) then
      var archive := fs[path].blob;
      var apps := AppDirEntries(archive.names, f);
      if |apps| == 1 then
        var relativeAppDir := apps[0];
        SingleEntryIff(archive.names, f, relativeAppDir);
        assert apps == [relativeAppDir];
        var plist :- ReadMemberPlist(archive, InfoPlistMember(relativeAppDir));
        var isNative :- IsPlistNative(plist);
        Ok((Some(relativeAppDir), isNative))
      else
        Ok((None, false))
    else
      Ok((None, false))
  }

  /**
   * With the right extension and exactly one matching entry, the precheck
   * reports that entry; its answer is the nativity test's answer on that
   * entry's Info.plist, and a missing member or a raising test raises.
   */
  lemma PrecheckFindsTheOne(fs: FileSystem, path: string, f: ZipFlavor, d: string)
    requires ExtensionMatch(path, Extensions(f)) && IsZipFile(fs, path)
    requires ExactlyOneMatch(fs[path].blob.names, f, d)
    ensures Precheck(fs, path, f).Ok? ==> Precheck(fs, path, f).value.0 == Some(d)
    ensures var plist := ReadMemberPlist(fs[path].blob, InfoPlistMember(d));
            plist.Ok? && IsPlistNative(plist.value).Ok? ==>
              Precheck(fs, path, f) == Ok((Some(d), IsPlistNative(plist.value).value))
    ensures var plist := ReadMemberPlist(fs[path].blob, InfoPlistMember(d));
            plist.Err? ==> Precheck(fs, path, f) == Err(plist.error)
    ensures var plist := ReadMemberPlist(fs[path].blob, InfoPlistMember(d));
            plist.Ok? && IsPlistNative(plist.value).Err? ==>
              Precheck(fs, path, f) == Err(IsPlistNative(plist.value).error)
  {
    SingleEntryIff(fs[path].blob.names, f, d);
  }

  /** `AppZip(path)` or `Ipa(path)`: raises `NotMatched` unless the precheck found a native app directory. */
  function NewAppZip(fs: FileSystem, path: string, f: ZipFlavor): (r: Result<AppZip, Error>)
    ensures r.Ok? ==> && r.value.path == path && r.value.flavor == f
                      && ExtensionMatch(path, Extensions(f))
                      && IsZipFile(fs, path)
                      && ExactlyOneMatch(fs[path].blob.names, f, r.value.relativeAppDir)
    ensures r.Ok? ==>
              && ReadMemberPlist(fs[path].blob, InfoPlistMember(r.value.relativeAppDir)).Ok?
              && IsPlistNative(ReadMemberPlist(fs[path].blob, InfoPlistMember(r.value.relativeAppDir)).value) == Ok(true)
    ensures !ExtensionMatch(path, Extensions(f)) ==> r == Err(NotMatched)
    ensures !IsZipFile(fs, path) ==> r == Err(NotMatched)
  {
    var (relativeAppDir, isNative) :- Precheck(fs, path, f);
    if relativeAppDir.None? || !isNative then Err(NotMatched)
    else Ok(AppZip(path, f, relativeAppDir.value))
  }

  /** An archive with no matching app directory, or with two or more, is not recognised. */
  lemma NotExactlyOneIsNotMatched(fs: FileSystem, path: string, f: ZipFlavor)
    requires IsZipFile(fs, path)
    requires forall d :: !ExactlyOneMatch(fs[path].blob.names, f, d)
    ensures NewAppZip(fs, path, f) == Err(NotMatched)
  {
    var names := fs[path].blob.names;
    var apps := AppDirEntries(names, f);
    if ExtensionMatch(path, Extensions(f)) && |apps| == 1 {
      assert apps == [apps[0]];
      SingleEntryIff(names, f, apps[0]);
      assert false;
    }
  }

  /** Two matching entries, even two copies of one name, make the variant reject the archive. */
  lemma TwoAppDirsNotMatched(fs: FileSystem, path: string, f: ZipFlavor, i: int, j: int)
    requires IsZipFile(fs, path)
    requires 0 <= i < |fs[path].blob.names| && 0 <= j < |fs[path].blob.names| && i != j
    requires AppDirPattern(f, fs[path].blob.names[i]) && AppDirPattern(f, fs[path].blob.names[j])
    ensures NewAppZip(fs, path, f) == Err(NotMatched)
  {
    TwoMatchesNotSingle(fs[path].blob.names, f, i, j);
  }

  /**
   * An archive with the right extension, exactly one matching app directory
   * and a native Info.plist inside it is recognised, with that entry as its
   * app directory.
   */
  lemma ExactlyOneIsRecognised(fs: FileSystem, path: string, f: ZipFlavor, d: string)
    requires ExtensionMatch(path, Extensions(f)) && IsZipFile(fs, path)
    requires ExactlyOneMatch(fs[path].blob.names, f, d)
    requires ReadMemberPlist(fs[path].blob, InfoPlistMember(d)).Ok?
    requires IsPlistNative(ReadMemberPlist(fs[path].blob, InfoPlistMember(d)).value) == Ok(true)
    ensures NewAppZip(fs, path, f) == Ok(AppZip(path, f, d))
  {
    SingleEntryIff(fs[path].blob.names, f, d);
  }

  /** A recognised archive whose app directory's Info.plist is not native is rejected. */
  lemma NonNativeArchiveNotMatched(fs: FileSystem, path: string, f: ZipFlavor, d: string)
    requires ExtensionMatch(path, Extensions(f)) && IsZipFile(fs, path)
    requires ExactlyOneMatch(fs[path].blob.names, f, d)
    requires ReadMemberPlist(fs[path].blob, InfoPlistMember(d)).Ok?
    requires IsPlistNative(ReadMemberPlist(fs[path].blob, InfoPlistMember(d)).value) == Ok(false)
    ensures NewAppZip(fs, path, f) == Err(NotMatched)
  {
    SingleEntryIff(fs[path].blob.names, f, d);
  }
}

=== FILE: errors.dfy ===
/** The exceptions that the bundle-format code raises or lets escape. */
module Errors {

  datatype Error =
    /** `NotSignable`: the input cannot be processed at all. */
    | NotSignable
    /** `NotMatched`, the subclass of `NotSignable`: a format variant did not recognise the input. */
    | NotMatched
    /** The generic exception raised when the main executable is not on disk. */
    | MissingExecutable
    /** `IOError`/`OSError`: a path that must exist does not, or has the wrong kind. */
    | NoSuchFile
    | IsADirectory
    | NotADirectory
    /** `shutil.Error`: copying a file onto itself, or moving a directory into itself. */
    | SameFile
    | MoveIntoItself
    /** The plist library could not parse a file as a property list. */
    | InvalidPlist
    /** `KeyError` from reading an entry that the zip archive does not hold. */
    | NoSuchMember
    /** `TypeError`/`AttributeError`: a plist value of the wrong type was used. */
    | NotIterable
    | NotAString

  /** True of the errors that `except NotSignable` catches: the class and its subclass. */
  predicate IsNotSignable(e: Error) {
    e.NotSignable? || e.NotMatched?
  }
}

=== FILE: factory.dfy ===
/** `app_archive_factory`: choose the format variant for an input path. */
module Factory {
  import opened Wrappers
  import opened Errors
  import opened Files
  import opened Patterns
  import opened Apps
  import opened AppZips
  import Paths
  import Plist

  /** The object the factory returns: an app directory, or a recognised archive. */
  datatype Bundle = DirBundle(app: App) | ZipBundle(archive: AppZip)

  /**
   * A directory is tried only as an app directory, with a `NotSignable`
   * (or `NotMatched`) re-raised as `NotSignable`; anything else is tried as
   * a generic zip and then as an IPA, and the first that does not raise
   * `NotMatched` wins. When neither matches, `NotSignable` is raised.
   */
  function AppArchiveFactory(fs: FileSystem, path: string): (r: Result<Bundle, Error>)
    ensures IsDir(fs, path) ==> (r.Ok? <==> NewApp(fs, path).Ok?)
    ensures IsDir(fs, path) && r.Ok? ==> r.value == DirBundle(NewApp(fs, path).value)
    ensures IsDir(fs, path) && r.Err? ==>
              r.error == (if IsNotSignable(NewApp(fs, path).error) then NotSignable else NewApp(fs, path).error)
    ensures !IsDir(fs, path) && r.Ok? ==> r.value.ZipBundle? && r.value.archive.path == path
    ensures r.Err? ==> r.error != NotMatched
  {
    if IsDir(fs, path) then
      match NewApp(fs, path)
      case Ok(app) => Ok(DirBundle(app))
      case Err(e) => Err(if IsNotSignable(e) then NotSignable else e)
    else
      match NewAppZip(fs, path, GenericZip)
      case Ok(z) => Ok(ZipBundle(z))
      case Err(e) =>
        if e != NotMatched then Err(e)
        else
          match NewAppZip(fs, path, Ipa)
          case Ok(z) => Ok(ZipBundle(z))
          case Err(e') => if e' != NotMatched then Err(e') else Err(NotSignable)
  }

  /** The generic zip variant is tried first: when it matches, it is the result. */
  lemma GenericZipTriedFirst(fs: FileSystem, path: string)
    requires !IsDir(fs, path) && NewAppZip(fs, path, GenericZip).Ok?
    ensures AppArchiveFactory(fs, path) == Ok(ZipBundle(NewAppZip(fs, path, GenericZip).value))
  {
  }

  /** The IPA variant is tried only after the generic zip raised `NotMatched`. */
  lemma IpaTriedSecond(fs: FileSystem, path: string)
    requires !IsDir(fs, path)
    ensures AppArchiveFactory(fs, path).Ok? && AppArchiveFactory(fs, path).value.archive.flavor == Ipa
            <==> NewAppZip(fs, path, GenericZip) == Err(NotMatched) && NewAppZip(fs, path, Ipa).Ok?
  {
  }

  /** When neither zip variant matches a file, the factory raises `NotSignable`. */
  lemma NeitherVariantIsNotSignable(fs: FileSystem, path: string)
    requires !IsDir(fs, path)
    requires NewAppZip(fs, path, GenericZip) == Err(NotMatched)
    requires NewAppZip(fs, path, Ipa) == Err(NotMatched)
    ensures AppArchiveFactory(fs, path) == Err(NotSignable)
  {
  }

  /** A directory is never treated as an archive, whatever it is named. */
  lemma DirectoryOnlyApp(fs: FileSystem, path: string)
    requires IsDir(fs, path)
    ensures AppArchiveFactory(fs, path).Ok? ==> AppArchiveFactory(fs, path).value.DirBundle?
    ensures NewApp(fs, path) == Err(NotMatched) ==> AppArchiveFactory(fs, path) == Err(NotSignable)
  {
  }

  /**
   * The fixed order never decides between two working variants: no path
   * passes both extension tests, so at most one zip variant can match.
   */
  lemma ZipVariantsExclusive(fs: FileSystem, path: string)
    ensures !(NewAppZip(fs, path, GenericZip).Ok? && NewAppZip(fs, path, Ipa).Ok?)
  {
    ExtensionsExclusive(path);
  }

  /** A native app directory is recognised as such, with no seal yet. */
  lemma NativeDirectoryRecognised(fs: FileSystem, path: string)
    requires IsDir(fs, path)
    requires ReadPlist(fs, Paths.Join(path, InfoPlistName)).Ok?
    requires Plist.IsPlistNative(ReadPlist(fs, Paths.Join(path, InfoPlistName)).value) == Ok(true)
    ensures AppArchiveFactory(fs, path).Ok?
    ensures AppArchiveFactory(fs, path).value.app.path == path
    ensures AppArchiveFactory(fs, path).value.app.sealPath == None
  {
  }

  /** An `.ipa` holding exactly one `Payload/<name>.app/` with a native Info.plist is recognised as an IPA with that app directory. */
  lemma IpaRecognised(fs: FileSystem, path: string, d: string)
    requires !IsDir(fs, path) && IsZipFile(fs, path)
    requires Paths.EndsWith(path, ".ipa")
    requires ExactlyOneMatch(fs[path].blob.names, Ipa, d)
    requires ReadMemberPlist(fs[path].blob, InfoPlistMember(d)).Ok?
    requires Plist.IsPlistNative(ReadMemberPlist(fs[path].blob, InfoPlistMember(d)).value) == Ok(true)
    ensures AppArchiveFactory(fs, path) == Ok(ZipBundle(AppZip(path, Ipa, d)))
  {
    ExtensionIsSuffixTest(path);
    ExtensionsExclusive(path);
    ExactlyOneIsRecognised(fs, path, Ipa, d);
  }
}

=== FILE: files.dfy ===
/**
 * An abstract filesystem: a map from path strings to nodes, with the
 * primitives the bundle code calls (`biplist.readPlist`/`writePlist`,
 * `shutil.copyfile`, `shutil.rmtree`, and the rename path of `shutil.move`).
 */
module Files {
  import opened Wrappers
  import opened Errors
  import opened Plist

  /** File contents, as far as the model needs to look into them. */
  datatype Blob =
    /** Opaque bytes, such as a provisioning profile or a binary. */
    | Raw(bytes: seq<bv8>)
    /** A property list, stored in binary or textual (XML) form. */
    | PlistDoc(dict: PlistDict, binary: bool)
    /** A zip archive: its name list in archive order and the contents of its members. */
    | ZipDoc(names: seq<string>, members: map<string, Blob>)

  datatype Node = Dir | File(blob: Blob)

  type FileSystem = map<string, Node>

  predicate IsDir(fs: FileSystem, p: string) {
    p in fs && fs[p].Dir?
  }

  /** `p` is `root` itself or lies somewhere below it. */
  predicate Under(p: string, root: string) {
    p == root || StrictlyUnder(p, root)
  }

  predicate StrictlyUnder(p: string, root: string) {
    |p| > |root| && p[..|root| + 1] == root + "/"
  }

  /** Every proper ancestor of an existing path is an existing directory: files have no children. */
  ghost predicate WellFormed(fs: FileSystem) {
    forall p, q :: q in fs && StrictlyUnder(q, p) ==> IsDir(fs, p)
  }

  /** Two trees that share a path are nested one inside the other. */
  lemma UnderComparable(p: string, a: string, c: string)
    requires Under(p, a) && Under(p, c)
    ensures a == c || StrictlyUnder(a, c) || StrictlyUnder(c, a)
  {
    if |a| < |c| {
      assert c[..|a| + 1] == p[..|a| + 1];
    } else if |c| < |a| {
      assert a[..|c| + 1] == p[..|c| + 1];
    } else {
      assert a == p[..|a|] == c;
    }
  }

  /** Parsing a blob as a plist (`readPlistFromString`). */
  function ParsePlist(b: Blob): (r: Result<PlistDict, Error>)
    ensures r.Ok? <==> b.PlistDoc?
    ensures r.Err? ==> r.error == InvalidPlist
  {
    if b.PlistDoc? then Ok(b.dict) else Err(InvalidPlist)
  }

  /** `biplist.readPlist(path)`. */
  function ReadPlist(fs: FileSystem, path: string): (r: Result<PlistDict, Error>)
    ensures path !in fs ==> r == Err(NoSuchFile)
    ensures IsDir(fs, path) ==> r == Err(IsADirectory)
    ensures r.Ok? <==> path in fs && fs[path].File? && fs[path].blob.PlistDoc?
  {
    if path !in fs then Err(NoSuchFile)
    else if fs[path].Dir? then Err(IsADirectory)
    else ParsePlist(fs[path].blob)
  }

  /** `biplist.writePlist(dict, path, binary)`: creates or overwrites the file at `path`. */
  function WritePlist(fs: FileSystem, path: string, dict: PlistDict, binary: bool): (r: Result<FileSystem, Error>)
    ensures r.Ok? <==> !IsDir(fs, path)
    ensures r.Err? ==> r.error == IsADirectory
    ensures r.Ok? ==> r.value.Keys == fs.Keys + {path}
    ensures r.Ok? ==> forall p :: p in fs && p != path ==> r.value[p] == fs[p]
  {
    if IsDir(fs, path) then Err(IsADirectory)
    else Ok(fs[path := File(PlistDoc(dict, binary))])
  }

  /** Reading back what was just written yields the same dictionary. */
  lemma ReadAfterWrite(fs: FileSystem, path: string, dict: PlistDict, binary: bool)
    requires !IsDir(fs, path)
    ensures ReadPlist(WritePlist(fs, path, dict, binary).value, path) == Ok(dict)
  {
  }

  /** Writing the same dictionary twice leaves the same filesystem as writing it once. */
  lemma WriteIdempotent(fs: FileSystem, path: string, dict: PlistDict, binary: bool)
    requires !IsDir(fs, path)
    ensures WritePlist(fs, path, dict, binary).Ok?
    ensures WritePlist(WritePlist(fs, path, dict, binary).value, path, dict, binary)
         == WritePlist(fs, path, dict, binary)
  {
    var once := fs[path := File(PlistDoc(dict, binary))];
    assert once[path := File(PlistDoc(dict, binary))] == once;
  }

  /**
   * `shutil.copyfile(src, dst)`: refuses a copy onto itself, needs `src` to
   * be an existing file and `dst` not to be a directory, then overwrites
   * `dst` with the bytes of `src`.
   */
  function CopyFile(fs: FileSystem, src: string, dst: string): (r: Result<FileSystem, Error>)
    ensures r.Ok? <==> src in fs && src != dst && fs[src].File? && !IsDir(fs, dst)
    ensures r.Ok? ==> r.value.Keys == fs.Keys + {dst} && r.value[dst] == fs[src]
    ensures r.Ok? ==> forall p :: p in fs && p != dst ==> r.value[p] == fs[p]
  {
    if src in fs && src == dst then Err(SameFile)
    else if src !in fs then Err(NoSuchFile)
    else if fs[src].Dir? then Err(IsADirectory)
    else if IsDir(fs, dst) then Err(IsADirectory)
    else Ok(fs[dst := fs[src]])
  }

  /** `shutil.rmtree(p)`: removes a directory and everything below it; fails on a plain file. */
  function RemoveTree(fs: FileSystem, p: string): (r: Result<FileSystem, Error>)
    ensures r.Ok? <==> IsDir(fs, p)
    ensures r.Ok? ==> forall q :: q in r.value <==> q in fs && !Under(q, p)
    ensures r.Ok? ==> forall q :: q in r.value ==> r.value[q] == fs[q]
  {
    if p !in fs then Err(NoSuchFile)
    else if fs[p].File? then Err(NotADirectory)
    else Ok(map q | q in fs && !Under(q, p) :: fs[q])
  }

  /** The path that `p`, inside `src`, takes when `src` is renamed to `dst`. */
  function Reroot(p: string, src: string, dst: string): string
    requires Under(p, src)
  {
    dst + p[|src|..]
  }

  /** Distinct paths inside `src` land on distinct paths inside `dst`. */
  lemma RerootInjective(p: string, q: string, src: string, dst: string)
    requires Under(p, src) && Under(q, src)
    requires Reroot(p, src, dst) == Reroot(q, src, dst)
    ensures p == q
  {
    assert p[|src|..] == Reroot(p, src, dst)[|dst|..];
    assert q[|src|..] == Reroot(q, src, dst)[|dst|..];
    assert p == p[..|src|] + p[|src|..];
    assert q == q[..|src|] + q[|src|..];
  }

  /** A path inside `src` lands inside `dst`. */
  lemma RerootUnder(p: string, src: string, dst: string)
    requires Under(p, src)
    ensures Under(Reroot(p, src, dst), dst)
  {
    if p != src {
      assert p[|src|..][0] == '/';
      assert Reroot(p, src, dst)[..|dst| + 1] == dst + "/";
    }
  }

  /** The tree at `src`, re-rooted at `dst`. */
  function MovedTree(fs: FileSystem, src: string, dst: string): (m: FileSystem)
    ensures forall p :: p in fs && Under(p, src) ==> Reroot(p, src, dst) in m && m[Reroot(p, src, dst)] == fs[p]
    ensures forall q :: q in m ==> Under(q, dst) && exists p :: p in fs && Under(p, src) && q == Reroot(p, src, dst)
  {
    assert forall p, q :: Under(p, src) && Under(q, src) && Reroot(p, src, dst) == Reroot(q, src, dst) ==> p == q by {
      forall p, q | Under(p, src) && Under(q, src) && Reroot(p, src, dst) == Reroot(q, src, dst) {
        RerootInjective(p, q, src, dst);
      }
    }
    var m := map p | p in fs && Under(p, src) :: Reroot(p, src, dst) := fs[p];
    forall p | p in fs && Under(p, src)
      ensures Reroot(p, src, dst) in m && m[Reroot(p, src, dst)] == fs[p]
    {
      assert Reroot(p, src, dst) in m;
    }
    forall q | q in m
      ensures Under(q, dst)
    {
      var p :| p in fs && Under(p, src) && q == Reroot(p, src, dst);
      RerootUnder(p, src, dst);
    }
    m
  }

  /**
   * The rename path of `shutil.move(src, dst)`, which tries `os.rename`
   * first: a whole tree moves onto a path that does not exist yet, and every
   * path inside `src` reappears at the same place inside `dst`.
   */
  function Rename(fs: FileSystem, src: string, dst: string): (r: FileSystem)
    ensures forall p :: p in fs && Under(p, src) ==> Reroot(p, src, dst) in r && r[Reroot(p, src, dst)] == fs[p]
    ensures forall q :: q in r && Under(q, dst) && !(q in fs && !Under(q, src)) ==>
              exists p :: p in fs && Under(p, src) && q == Reroot(p, src, dst)
    ensures forall q :: !Under(q, dst) ==> (q in r <==> q in fs && !Under(q, src))
    ensures forall q :: q in r && !Under(q, dst) ==> r[q] == fs[q]
  {
    var outside := map p | p in fs && !Under(p, src) :: fs[p];
    outside + MovedTree(fs, src, dst)
  }
}

=== FILE: paths.dfy ===
/**
 * POSIX path helpers with the behaviour of Python 2's `os.path`:
 * `join`, `basename` and `splitext`, plus the string tests the
 * bundle code builds on (`str.endswith`).
 */
module Paths {

  predicate StartsWith(s: string, prefix: string) {
    |prefix| <= |s| && s[..|prefix|] == prefix
  }

  predicate EndsWith(s: string, suffix: string) {
    |suffix| <= |s| && s[|s| - |suffix|..] == suffix
  }

  /** `str.endswith` is a pure suffix test: it holds exactly of the strings `pre + suffix`. */
  lemma EndsWithConcat(pre: string, suffix: string)
    ensures EndsWith(pre + suffix, suffix)
  {
    assert (pre + suffix)[|pre|..] == suffix;
  }

  lemma EndsWithSplit(s: string, suffix: string)
    requires EndsWith(s, suffix)
    ensures s == s[..|s| - |suffix|] + suffix
  {
  }

  /** `os.path.join(a, b)`: an absolute `b` replaces `a`; otherwise a single separator is inserted when needed. */
  function Join(a: string, b: string): (r: string)
    ensures EndsWith(r, b)
    ensures |b| > 0 && b[0] == '/' ==> r == b
    ensures !(|b| > 0 && b[0] == '/') ==> StartsWith(r, a) && |r| <= |a| + 1 + |b|
  {
    if |b| > 0 && b[0] == '/' then b
    else if a == "" || a[|a| - 1] == '/' then a + b
    else a + "/" + b
  }

  /** `str.rfind(c)`: the last index holding `c`, or -1 when there is none. */
  function RFind(s: string, c: char): (i: int)
    ensures -1 <= i < |s|
    ensures i >= 0 ==> s[i] == c
    ensures forall j :: i < j < |s| ==> s[j] != c
    ensures i == -1 <==> c !in s
  {
    if |s| == 0 then -1
    else if s[|s| - 1] == c then |s| - 1
    else RFind(s[..|s| - 1], c)
  }

  /** The last occurrence is the one with no further occurrence after it. */
  lemma RFindAt(s: string, c: char, i: int)
    requires 0 <= i < |s| && s[i] == c
    requires forall j :: i < j < |s| ==> s[j] != c
    ensures RFind(s, c) == i
  {
  }

  /** `os.path.basename`: everything after the last separator. */
  function Basename(p: string): (r: string)
    ensures '/' !in r
    ensures EndsWith(p, r)
    ensures r == p || p[|p| - |r| - 1] == '/'
  {
    p[RFind(p, '/') + 1..]
  }

  predicate AllDots(s: string) {
    forall k :: 0 <= k < |s| ==> s[k] == '.'
  }

  /** The part of `root` after index `sep` (its last separator) is not made only of dots. */
  predicate NameNotAllDots(root: string, sep: int) {
    -1 <= sep < |root| && !AllDots(root[sep + 1..])
  }

  /**
   * `os.path.splitext`: the extension runs from the last dot of the last
   * component to the end, except that leading dots of a component never
   * start an extension (so `.app` has none).
   */
  function SplitExt(p: string): (r: (string, string))
    ensures r.0 + r.1 == p
    ensures r.1 == "" || (r.1[0] == '.' && '.' !in r.1[1..] && '/' !in r.1)
    ensures r.1 != "" ==> NameNotAllDots(r.0, RFind(p, '/'))
    ensures p != "" ==> r.0 != "" && r.0[0] == p[0]
  {
    var sep := RFind(p, '/');
    var dot := RFind(p, '.');
    if dot > sep && !AllDots(p[sep + 1..dot]) then
      ExtensionShape(p, sep, dot);
      (p[..dot], p[dot..])
    else
      assert p + "" == p;
      (p, "")
  }

  /** The pieces `splitext` cuts at a dot after the last separator. */
  lemma ExtensionShape(p: string, sep: int, dot: int)
    requires -1 <= sep < dot < |p| && p[dot] == '.'
    requires forall j :: sep < j < |p| ==> p[j] != '/'
    requires forall j :: dot < j < |p| ==> p[j] != '.'
    requires !AllDots(p[sep + 1..dot])
    ensures 0 < dot
    ensures p[..dot] + p[dot..] == p
    ensures p[dot..][0] == '.' && '.' !in p[dot..][1..] && '/' !in p[dot..]
    ensures NameNotAllDots(p[..dot], sep)
    ensures p[..dot][0] == p[0]
  {
    assert p[..dot][sep + 1..] == p[sep + 1..dot];
    var b := p[dot..];
    forall k | 0 <= k < |b|
      ensures b[k] != '/' && (k > 0 ==> b[k] != '.')
    {
      assert b[k] == p[dot + k];
    }
    assert b[1..] == p[dot + 1..];
  }

  /** The name `splitext(basename(p))[0]` that a bundle's executable falls back to. */
  function Stem(p: string): string {
    SplitExt(Basename(p)).0
  }

  /**
   * A base name `x.ext` whose `x` does not start with a dot splits at its
   * last dot: inner dots of `x` stay in the name.
   */
  lemma SplitExtAtLastDot(x: string, ext: string)
    requires x != "" && x[0] != '.' && '/' !in x
    requires '.' !in ext && '/' !in ext
    ensures SplitExt(x + "." + ext) == (x, "." + ext)
  {
    var p := x + "." + ext;
    assert '/' !in p;
    RFindAt(p, '.', |x|);
    assert p[..|x|] == x && p[0..|x|] == x;
    assert x[0] != '.';
    assert p[|x|..] == "." + ext;
  }

  /**
   * The fallback name of a bundle `<d>/<x>.<ext>` is `x`, whatever the
   * directory: `/w/Foo.app` gives `Foo`.
   */
  lemma StemOf(d: string, x: string, ext: string)
    requires x != "" && x[0] != '.' && '/' !in x
    requires '.' !in ext && '/' !in ext
    ensures Stem(d + "/" + x + "." + ext) == x
  {
    var p := d + "/" + x + "." + ext;
    RFindAt(p, '/', |d|);
    assert Basename(p) == x + "." + ext;
    SplitExtAtLastDot(x, ext);
  }

  /** A leading dot never starts an extension: `.app` or `.profile` has none. */
  lemma DotFileHasNoExtension(x: string)
    requires '.' !in x && '/' !in x
    ensures SplitExt("." + x) == ("." + x, "")
  {
    RFindAt("." + x, '.', 0);
  }
}

=== FILE: patterns.dfy ===
/**
 * The two zip-based format variants' recognisers: the extension test and
 * the app-directory patterns `^[^/]+\.app/$` and `^Payload/[^/]+\.app/$`,
 * written out by hand with the meaning Python's `re.match` gives them.
 */
module Patterns {
  import Paths

  /** The zip-based variants: `AppZip` (generic zip) and its subclass `Ipa`. */
  datatype ZipFlavor = GenericZip | Ipa

  /** The class attribute `extensions`. */
  function Extensions(f: ZipFlavor): seq<string> {
    match f
    case GenericZip => [".zip"]
    case Ipa => [".ipa"]
  }

  /** `is_archive_extension_match`: some listed extension is a suffix of the path. */
  function ExtensionMatch(path: string, exts: seq<string>): (r: bool)
    ensures r <==> exists i :: 0 <= i < |exts| && Paths.EndsWith(path, exts[i])
  {
    if exts == [] then false
    else if Paths.EndsWith(path, exts[0]) then true
    else
      var rest := ExtensionMatch(path, exts[1..]);
      assert forall i :: 1 <= i < |exts| ==> exts[i] == exts[1..][i - 1];
      rest
  }

  /** The generic zip accepts exactly the paths ending in `.zip`, the IPA variant those ending in `.ipa`. */
  lemma ExtensionIsSuffixTest(path: string)
    ensures ExtensionMatch(path, Extensions(GenericZip)) <==> Paths.EndsWith(path, ".zip")
    ensures ExtensionMatch(path, Extensions(Ipa)) <==> Paths.EndsWith(path, ".ipa")
  {
  }

  /** No path passes both extension tests, so at most one zip-based variant can recognise a file. */
  lemma ExtensionsExclusive(path: string)
    ensures !(ExtensionMatch(path, Extensions(GenericZip)) && ExtensionMatch(path, Extensions(Ipa)))
  {
  }

  const AppSuffix: string := ".app/"
  const PayloadPrefix: string := "Payload/"

  /** The anchored body of `[^/]+\.app/`: a non-empty name without `/`, then `.app/`. */
  predicate AppDirName(n: string) {
    |n| > |AppSuffix| && Paths.EndsWith(n, AppSuffix) && '/' !in n[..|n| - |AppSuffix|]
  }

  /** The anchored body of the variant's pattern, without the trailing `$`. */
  predicate PatternBody(f: ZipFlavor, n: string) {
    match f
    case GenericZip => AppDirName(n)
    case Ipa => Paths.StartsWith(n, PayloadPrefix) && AppDirName(n[|PayloadPrefix|..])
  }

  /**
   * `re.match(app_dir_pattern, n)`: the pattern is anchored at the start,
   * and Python's `$` matches at the end or just before one final newline.
   */
  predicate AppDirPattern(f: ZipFlavor, n: string) {
    PatternBody(f, n) || (|n| > 0 && n[|n| - 1] == '\n' && PatternBody(f, n[..|n| - 1]))
  }

  /** Every name `x + ".app/"` with a non-empty, separator-free `x` matches the generic pattern, with or without a final newline. */
  lemma GenericPatternAccepts(x: string)
    requires |x| > 0 && '/' !in x
    ensures AppDirPattern(GenericZip, x + AppSuffix)
    ensures AppDirPattern(GenericZip, x + AppSuffix + "\n")
  {
    Paths.EndsWithConcat(x, AppSuffix);
    assert (x + AppSuffix)[..|x|] == x;
    assert (x + AppSuffix + "\n")[..|x + AppSuffix|] == x + AppSuffix;
  }

  /** Conversely, a generic match is such a name: a single path component ending in `.app/`. */
  lemma GenericPatternShape(n: string)
    requires AppDirPattern(GenericZip, n)
    ensures var body := if PatternBody(GenericZip, n) then n else n[..|n| - 1];
            && (body == n || n == body + "\n")
            && body == body[..|body| - |AppSuffix|] + AppSuffix
            && |body[..|body| - |AppSuffix|]| > 0
            && '/' !in body[..|body| - |AppSuffix|]
  {
    var body := if PatternBody(GenericZip, n) then n else n[..|n| - 1];
    assert body == n || n == body + [n[|n| - 1]];
    Paths.EndsWithSplit(body, AppSuffix);
  }

  /** Every `Payload/x.app/` with a non-empty, separator-free `x` matches the IPA pattern. */
  lemma IpaPatternAccepts(x: string)
    requires |x| > 0 && '/' !in x
    ensures AppDirPattern(Ipa, PayloadPrefix + x + AppSuffix)
  {
    var n := PayloadPrefix + x + AppSuffix;
    assert n[..|PayloadPrefix|] == PayloadPrefix;
    assert n[|PayloadPrefix|..] == x + AppSuffix;
    GenericPatternAccepts(x);
  }

  /**
   * Conversely, an IPA match is a single `.app/` component directly under
   * `Payload/`, followed by at most one newline.
   */
  lemma IpaPatternShape(n: string)
    requires AppDirPattern(Ipa, n)
    ensures var body := if PatternBody(Ipa, n) then n else n[..|n| - 1];
            && (body == n || n == body + "\n")
            && Paths.StartsWith(body, PayloadPrefix)
            && PatternBody(GenericZip, body[|PayloadPrefix|..])
  {
    var body := if PatternBody(Ipa, n) then n else n[..|n| - 1];
    assert body == n || n == body + [n[|n| - 1]];
  }

  /** An IPA app directory such as `Payload/Foo.app/` never matches the generic pattern. */
  lemma IpaEntryIsNotGeneric(n: string)
    requires AppDirPattern(Ipa, n)
    ensures !AppDirPattern(GenericZip, n)
  {
    var body := if PatternBody(Ipa, n) then n else n[..|n| - 1];
    assert PatternBody(Ipa, body);
    assert body[|PayloadPrefix| - 1] == '/';
    assert |body| - |AppSuffix| > |PayloadPrefix|;
    assert body[..|body| - |AppSuffix|][|PayloadPrefix| - 1] == '/';
  }

  /** A generic app directory never matches the IPA pattern either: the two patterns are disjoint. */
  lemma GenericEntryIsNotIpa(n: string)
    requires AppDirPattern(GenericZip, n)
    ensures !AppDirPattern(Ipa, n)
  {
    if AppDirPattern(Ipa, n) {
      IpaEntryIsNotGeneric(n);
    }
  }

  /** The app directories found in a name list, in archive order (the loop of `precheck`). */
  function AppDirEntries(names: seq<string>, f: ZipFlavor): (apps: seq<string>)
    ensures forall n :: n in apps <==> n in names && AppDirPattern(f, n)
    ensures |apps| <= |names|
  {
    if names == [] then []
    else
      var rest := AppDirEntries(names[1..], f);
      assert forall n :: n in names[1..] ==> n in names;
      assert forall n :: n in names && n != names[0] ==> n in names[1..];
      if AppDirPattern(f, names[0]) then [names[0]] + rest else rest
  }

  /** Index `i` holds the one and only name of the list that matches the variant's pattern. */
  predicate OnlyMatchAt(names: seq<string>, f: ZipFlavor, i: int) {
    && 0 <= i < |names|
    && AppDirPattern(f, names[i])
    && forall j :: 0 <= j < |names| && j != i ==> !AppDirPattern(f, names[j])
  }

  /** Exactly one entry (counting duplicates separately) of the name list matches, and it is `d`. */
  predicate ExactlyOneMatch(names: seq<string>, f: ZipFlavor, d: string) {
    exists i :: 0 <= i < |names| && names[i] == d && OnlyMatchAt(names, f, i)
  }

  /** The scan finds nothing exactly when no entry matches. */
  lemma NoEntriesIff(names: seq<string>, f: ZipFlavor)
    ensures AppDirEntries(names, f) == [] <==> forall j :: 0 <= j < |names| ==> !AppDirPattern(f, names[j])
  {
    var apps := AppDirEntries(names, f);
    if apps != [] {
      assert apps[0] in apps;
    }
  }

  /** The scan yields the single entry `[d]` exactly when `d` is the one matching entry of the list. */
  lemma {:induction false} SingleEntryIff(names: seq<string>, f: ZipFlavor, d: string)
    ensures AppDirEntries(names, f) == [d] <==> ExactlyOneMatch(names, f, d)
  {
    if names == [] {
    } else {
      var tail := names[1..];
      SingleEntryIff(tail, f, d);
      NoEntriesIff(tail, f);
      if AppDirPattern(f, names[0]) {
        if AppDirEntries(names, f) == [d] {
          assert AppDirEntries(tail, f) == [];
          assert OnlyMatchAt(names, f, 0) by {
            forall j | 0 < j < |names|
              ensures !AppDirPattern(f, names[j])
            {
              assert names[j] == tail[j - 1];
            }
          }
        }
        if ExactlyOneMatch(names, f, d) {
          var i :| 0 <= i < |names| && names[i] == d && OnlyMatchAt(names, f, i);
          assert i == 0;
          forall j | 0 <= j < |tail|
            ensures !AppDirPattern(f, tail[j])
          {
            assert tail[j] == names[j + 1];
          }
        }
      } else {
        if ExactlyOneMatch(tail, f, d) {
          var i :| 0 <= i < |tail| && tail[i] == d && OnlyMatchAt(tail, f, i);
          assert OnlyMatchAt(names, f, i + 1) by {
            forall j | 0 <= j < |names| && j != i + 1
              ensures !AppDirPattern(f, names[j])
            {
              if j > 0 {
                assert names[j] == tail[j - 1];
              }
            }
          }
          assert names[i + 1] == d;
        }
        if ExactlyOneMatch(names, f, d) {
          var i :| 0 <= i < |names| && names[i] == d && OnlyMatchAt(names, f, i);
          assert i > 0;
          assert OnlyMatchAt(tail, f, i - 1) by {
            forall j | 0 <= j < |tail| && j != i - 1
              ensures !AppDirPattern(f, tail[j])
            {
              assert tail[j] == names[j + 1];
            }
          }
          assert tail[i - 1] == d;
        }
      }
    }
  }

  /** Two distinct matching entries (even two copies of one name) leave the scan with more than one result. */
  lemma TwoMatchesNotSingle(names: seq<string>, f: ZipFlavor, i: int, j: int)
    requires 0 <= i < |names| && 0 <= j < |names| && i != j
    requires AppDirPattern(f, names[i]) && AppDirPattern(f, names[j])
    ensures |AppDirEntries(names, f)| > 1
  {
    var apps := AppDirEntries(names, f);
    NoEntriesIff(names, f);
    if |apps| == 1 {
      assert apps == [apps[0]];
      SingleEntryIff(names, f, apps[0]);
      assert false;
    }
  }
}

=== FILE: plist.dfy ===
/**
 * Parsed property-list values and the nativity test on an Info.plist.
 * Membership follows Python's `in`: element equality on a list, substring
 * on a string, key lookup on a dictionary, and a `TypeError` on scalars.
 */
module Plist {
  import opened Wrappers
  import opened Errors

  datatype Value =
    | Str(s: string)
    | Bool(b: bool)
    | Int(i: int)
    | Arr(items: seq<Value>)
    | Dict(entries: map<string, Value>)

  /** A parsed plist whose root is a dictionary. */
  type PlistDict = map<string, Value>

  const SupportedPlatformsKey: string := "CFBundleSupportedPlatforms"
  const IPhoneOS: string := "iPhoneOS"

  predicate OccursAt(needle: string, hay: string, i: int) {
    0 <= i <= |hay| - |needle| && hay[i..i + |needle|] == needle
  }

  predicate IsSubstring(needle: string, hay: string) {
    exists i :: 0 <= i <= |hay| && OccursAt(needle, hay, i)
  }

  /** Python's `item in container` for a string `item`. */
  function Contains(container: Value, item: string): (r: Result<bool, Error>)
    ensures r.Err? <==> container.Bool? || container.Int?
    ensures r.Err? ==> r.error == NotIterable
    ensures container.Arr? ==> r == Ok(Str(item) in container.items)
    ensures container.Dict? ==> r == Ok(item in container.entries)
    ensures container.Str? ==> r == Ok(IsSubstring(item, container.s))
  {
    match container
    case Str(s) => Ok(IsSubstring(item, s))
    case Arr(xs) => Ok(Str(item) in xs)
    case Dict(m) => Ok(item in m)
    case Bool(_) => Err(NotIterable)
    case Int(_) => Err(NotIterable)
  }

  /** `is_plist_native`: the supported-platforms entry exists and contains `iPhoneOS`. */
  function IsPlistNative(plist: PlistDict): (r: Result<bool, Error>)
    ensures SupportedPlatformsKey !in plist ==> r == Ok(false)
    ensures r == Ok(true) ==> SupportedPlatformsKey in plist
    ensures r.Err? ==> SupportedPlatformsKey in plist && r.error == NotIterable
  {
    if SupportedPlatformsKey !in plist then Ok(false)
    else Contains(plist[SupportedPlatformsKey], IPhoneOS)
  }

  /**
   * For the usual list-valued entry, nativity is exactly list membership of
   * `iPhoneOS`; a list naming only `MacOSX` and `iPhoneSimulator` is not native.
   */
  lemma NativeIffListContains(plist: PlistDict)
    requires SupportedPlatformsKey in plist && plist[SupportedPlatformsKey].Arr?
    ensures IsPlistNative(plist).Ok?
    ensures IsPlistNative(plist) == Ok(true) <==> Str(IPhoneOS) in plist[SupportedPlatformsKey].items
  {
  }

  /**
   * A string-valued entry is accepted when `iPhoneOS` occurs anywhere in it,
   * because `in` on a string is a substring test: `iPhoneOSX` counts as native.
   */
  lemma StringPlatformIsSubstringTest(plist: PlistDict, s: string)
    requires SupportedPlatformsKey in plist && plist[SupportedPlatformsKey] == Str(s)
    ensures IsPlistNative(plist) == Ok(IsSubstring(IPhoneOS, s))
  {
  }
}

=== FILE: signing.dfy ===
/**
 * `App.sign` and `App.resign`: the ordered mutation steps of re-signing.
 * The signer, the dylib and executable signers and the resource sealer
 * are collaborators whose work is recorded as events in a trace.
 */
module Signing {
  import opened Wrappers
  import opened Errors
  import opened Files
  import opened Apps
  import Paths

  /** The signing identity; only its team id is used here. */
  datatype Signer = Signer(teamId: string)

  /** One observable step of re-signing. */
  datatype Event =
    | Provisioned(profile: string, target: string)
    | EntitlementsWritten(target: string, teamId: string)
    | DylibSigned(target: string)
    | SealMade(executable: string, root: string, seal: string)
    | ExecutableSigned(target: string)

  /** The position of each kind of step in the required order. */
  function Phase(e: Event): nat {
    match e
    case Provisioned(_, _) => 0
    case EntitlementsWritten(_, _) => 1
    case DylibSigned(_) => 2
    case SealMade(_, _, _) => 3
    case ExecutableSigned(_) => 4
  }

  /** Steps occur in phase order, and only dylib signing happens more than once. */
  ghost predicate InPipelineOrder(trace: seq<Event>) {
    forall i, j :: 0 <= i < j < |trace| ==>
      Phase(trace[i]) < Phase(trace[j]) || (trace[i].DylibSigned? && trace[j].DylibSigned?)
  }

  /** The bundle's `Frameworks` directory. */
  function FrameworksPath(root: string): string {
    Paths.Join(root, "Frameworks")
  }

  /**
   * `glob` of `<dir>` joined with `*.dylib`: a direct child of `dir` whose name ends in
   * `.dylib`; like every `*` glob it skips names starting with a dot.
   */
  predicate DylibGlobMatch(dir: string, p: string) {
    && StrictlyUnder(p, dir)
    && var name := p[|dir| + 1..];
       && name != ""
       && '/' !in name
       && name[0] != '.'
       && Paths.EndsWith(name, ".dylib")
  }

  /**
   * For a path one separator below the directory, the glob accepts exactly a
   * non-hidden name ending in `.dylib`; deeper paths are never matched.
   */
  lemma DylibGlobChild(dir: string, name: string)
    ensures DylibGlobMatch(dir, dir + "/" + name) <==>
              name != "" && '/' !in name && name[0] != '.' && Paths.EndsWith(name, ".dylib")
  {
    var p := dir + "/" + name;
    assert p[..|dir| + 1] == dir + "/";
    assert p[|dir| + 1..] == name;
  }

  /** The dylibs `sign` visits: none when `Frameworks` does not exist. */
  function DylibPaths(fs: FileSystem, root: string): (r: set<string>)
    ensures FrameworksPath(root) !in fs ==> r == {}
    ensures forall p :: p in r ==> p in fs && DylibGlobMatch(FrameworksPath(root), p)
    ensures FrameworksPath(root) in fs ==> forall p :: p in fs && DylibGlobMatch(FrameworksPath(root), p) ==> p in r
  {
    var dir := FrameworksPath(root);
    if dir in fs then set p | p in fs && DylibGlobMatch(dir, p) else {}
  }

  /** The first `|dylibs|` events sign every dylib, each exactly once. */
  ghost predicate SignsEachDylibOnce(events: seq<Event>, dylibs: set<string>) {
    && |events| >= |dylibs|
    && (forall i :: 0 <= i < |dylibs| ==> events[i].DylibSigned? && events[i].target in dylibs)
    && (forall i, j :: 0 <= i < j < |dylibs| ==> events[i] != events[j])
    && (forall d :: d in dylibs ==> DylibSigned(d) in events[..|dylibs|])
  }

  /**
   * The shape of a `sign` run over the given dylibs and executable lookup:
   * all dylibs first, then the seal over the bundle, then the main
   * executable, with the seal's path recorded on the app. When the lookup
   * fails, the exception comes after the dylibs and before the seal.
   */
  ghost predicate SignShape(dylibs: set<string>, exe: Result<string, Error>, app: App,
                            makeSeal: (string, string) -> string, events: seq<Event>, res: Result<App, Error>) {
    && SignsEachDylibOnce(events, dylibs)
    && match exe
       case Err(e) => |events| == |dylibs| && res == Err(e)
       case Ok(x) =>
         var seal := makeSeal(x, app.path);
         && |events| == |dylibs| + 2
         && events[|dylibs|] == SealMade(x, app.path, seal)
         && events[|dylibs| + 1] == ExecutableSigned(x)
         && res == Ok(app.(sealPath := Some(seal)))
  }

  /** What `sign` does to an app on a given filesystem. */
  ghost predicate SignOutcome(fs: FileSystem, app: App, makeSeal: (string, string) -> string,
                              events: seq<Event>, res: Result<App, Error>) {
    SignShape(DylibPaths(fs, app.path), ExecutablePath(fs, app), app, makeSeal, events, res)
  }

  /** The loop of `sign` over the dylibs, in an order the model leaves open (the directory listing's). */
  method SignDylibs(dylibs: set<string>) returns (events: seq<Event>)
    ensures |events| == |dylibs|
    ensures SignsEachDylibOnce(events, dylibs)
  {
    var remaining := dylibs;
    events := [];
    while remaining != {}
      invariant remaining <= dylibs
      invariant |events| + |remaining| == |dylibs|
      invariant forall i :: 0 <= i < |events| ==> events[i].DylibSigned? && events[i].target in dylibs - remaining
      invariant forall i, j :: 0 <= i < j < |events| ==> events[i] != events[j]
      invariant forall d :: d in dylibs - remaining ==> DylibSigned(d) in events
      decreases remaining
    {
      var d :| d in remaining;
      events := events + [DylibSigned(d)];
      remaining := remaining - {d};
    }
    assert events[..|dylibs|] == events;
  }

  /** Appending events after the dylib prefix keeps that prefix intact. */
  lemma SignsEachDylibOnceExtend(events: seq<Event>, more: seq<Event>, dylibs: set<string>)
    requires SignsEachDylibOnce(events, dylibs)
    ensures SignsEachDylibOnce(events + more, dylibs)
  {
    assert (events + more)[..|dylibs|] == events[..|dylibs|];
  }

  /** `App.sign`. */
  method Sign(fs: FileSystem, app: App, signer: Signer, makeSeal: (string, string) -> string)
    returns (events: seq<Event>, res: Result<App, Error>)
    ensures SignOutcome(fs, app, makeSeal, events, res)
    ensures res.Ok? ==> res.value.path == app.path && res.value.sealPath.Some?
  {
    var dylibs := DylibPaths(fs, app.path);
    events := SignDylibs(dylibs);
    match ExecutablePath(fs, app) {
      case Err(e) =>
        res := Err(e);
      case Ok(exe) =>
        var seal := makeSeal(exe, app.path);
        var sealed := app.(sealPath := Some(seal));
        var target := ExecutablePath(fs, sealed);
        assert target == Ok(exe);
        SignsEachDylibOnceExtend(events, [SealMade(exe, app.path, seal), ExecutableSigned(exe)], dylibs);
        events := events + [SealMade(exe, app.path, seal), ExecutableSigned(exe)];
        res := Ok(sealed);
    }
  }

  /** The steps of `sign` come in phase order: dylibs, then the seal, then the executable. */
  lemma SignShapeInOrder(dylibs: set<string>, exe: Result<string, Error>, app: App,
                         makeSeal: (string, string) -> string, events: seq<Event>, res: Result<App, Error>)
    requires SignShape(dylibs, exe, app, makeSeal, events, res)
    ensures InPipelineOrder(events)
    ensures forall i :: 0 <= i < |events| ==> Phase(events[i]) >= 2
  {
    var n := |dylibs|;
    assert forall i :: 0 <= i < n ==> events[i].DylibSigned?;
    assert |events| == n || (|events| == n + 2 && events[n].SealMade? && events[n + 1].ExecutableSigned?);
  }

  /** Without a `Frameworks` directory, signing touches no dylib. */
  lemma NoFrameworksNoDylibs(fs: FileSystem, app: App, makeSeal: (string, string) -> string,
                             events: seq<Event>, res: Result<App, Error>)
    requires SignOutcome(fs, app, makeSeal, events, res)
    requires FrameworksPath(app.path) !in fs
    ensures forall i :: 0 <= i < |events| ==> !events[i].DylibSigned?
  {
  }

  /** Every dylib is signed before the seal is made, and the seal before the executable is signed. */
  lemma DylibsBeforeSealBeforeExecutable(dylibs: set<string>, exe: Result<string, Error>, app: App,
                                         makeSeal: (string, string) -> string, events: seq<Event>,
                                         res: Result<App, Error>, d: string)
    requires SignShape(dylibs, exe, app, makeSeal, events, res)
    requires d in dylibs && res.Ok?
    ensures exists i, s, x :: 0 <= i < s < x < |events|
              && events[i] == DylibSigned(d) && events[s].SealMade? && events[x].ExecutableSigned?
  {
    var n := |dylibs|;
    assert DylibSigned(d) in events[..n];
    var i :| 0 <= i < n && events[..n][i] == DylibSigned(d);
    assert events[i] == DylibSigned(d);
    assert exe.Ok?;
    assert events[n].SealMade? && events[n + 1].ExecutableSigned?;
  }

  /** Provisioning and entitlements ahead of an ordered `sign` run keep the whole trace in order. */
  lemma SetupThenSignInOrder(provision: Event, entitle: Event, rest: seq<Event>)
    requires Phase(provision) == 0 && Phase(entitle) == 1
    requires InPipelineOrder(rest)
    requires forall i :: 0 <= i < |rest| ==> Phase(rest[i]) >= 2
    ensures InPipelineOrder([provision, entitle] + rest)
  {
    var t := [provision, entitle] + rest;
    forall i, j | 0 <= i < j < |t|
      ensures Phase(t[i]) < Phase(t[j]) || (t[i].DylibSigned? && t[j].DylibSigned?)
    {
      if i >= 2 {
        assert t[i] == rest[i - 2] && t[j] == rest[j - 2];
      } else if j >= 2 {
        assert t[j] == rest[j - 2];
      }
    }
  }

  /**
   * `App.resign`: copy the profile into the bundle, write the entitlements
   * for the signer's team, then sign; any exception stops the remaining
   * steps, and the filesystem keeps the changes already made.
   */
  method Resign(fs: FileSystem, app: App, signer: Signer, profile: string, makeSeal: (string, string) -> string)
    returns (fs': FileSystem, events: seq<Event>, res: Result<App, Error>)
    ensures InPipelineOrder(events)
    ensures Provision(fs, app, profile).Err? ==> fs' == fs && events == [] && res == Err(Provision(fs, app, profile).error)
    ensures Provision(fs, app, profile).Ok? ==>
              var provisioned := Provision(fs, app, profile).value;
              && |events| >= 1
              && events[0] == Provisioned(profile, app.provisionPath)
              && (match CreateEntitlements(provisioned, app, signer.teamId)
                  case Err(e) => fs' == provisioned && events == [events[0]] && res == Err(e)
                  case Ok(entitled) =>
                    && fs' == entitled
                    && |events| >= 2
                    && events[1] == EntitlementsWritten(app.entitlementsPath, signer.teamId)
                    && SignOutcome(entitled, app, makeSeal, events[2..], res))
    ensures res.Ok? ==>
              && app.entitlementsPath in fs'
              && fs'[app.entitlementsPath] == File(PlistDoc(Entitlements(signer.teamId), false))
              && res.value.path == app.path && res.value.sealPath.Some?
    ensures res.Ok? && app.provisionPath != app.entitlementsPath ==>
              app.provisionPath in fs' && fs'[app.provisionPath] == fs[profile]
  {
    match Provision(fs, app, profile) {
      case Err(e) =>
        fs', events, res := fs, [], Err(e);
      case Ok(provisioned) =>
        events := [Provisioned(profile, app.provisionPath)];
        match CreateEntitlements(provisioned, app, signer.teamId) {
          case Err(e) =>
            fs', res := provisioned, Err(e);
          case Ok(entitled) =>
            fs' := entitled;
            var provisionEvent := Provisioned(profile, app.provisionPath);
            var entitleEvent := EntitlementsWritten(app.entitlementsPath, signer.teamId);
            var signEvents;
            signEvents, res := Sign(entitled, app, signer, makeSeal);
            SignShapeInOrder(DylibPaths(entitled, app.path), ExecutablePath(entitled, app), app, makeSeal, signEvents, res);
            SetupThenSignInOrder(provisionEvent, entitleEvent, signEvents);
            events := [provisionEvent, entitleEvent] + signEvents;
            assert events[2..] == signEvents;
        }
    }
  }
}

=== FILE: wrappers.dfy ===
/** Failure-compatible wrappers used by every module of the model. */
module Wrappers {

  /** An optional value: Python's `None` or a present value. */
  datatype Option<+T> = None | Some(value: T)

  /** Either a value or the exception the source would raise instead. */
  datatype Result<+T, +E> = Ok(value: T) | Err(error: E) {

    predicate IsFailure() {
      Err?
    }

    function PropagateFailure<U>(): Result<U, E>
      requires Err?
    {
      Err(error)
    }

    function Extract(): T
      requires Ok?
    {
      value
    }
  }
}
